=== FILE: README.md ===
# roomfinder — a Dafny model of the listing core

roomfinder is a Django site where owners publish rooms for rent and visitors browse them.
This project models the parts of it that carry logic:

- the `cloudinary_image_url` template tag. It returns `''` for a missing image and the storage
  URL otherwise. When the `USE_CLOUDINARY` flag is on and a cloud name is set, it rewrites a
  relative URL into `https://res.cloudinary.com/<cloud>/image/upload/<path>`, with the path's
  leading slashes removed (module `CloudinaryHelpers`);
- the `Room` and `RoomImage` models (modules `Choices` and `Models`):
  - the closed choice lists for property type, room type and location;
  - the column lengths and the non-negative price;
  - `created_at`, which is set once;
  - the cascading foreign keys User → Room → RoomImage;
  - the `__str__` renderings;
- the two read views. `room_list` returns every room, newest first. `room_detail` returns one
  room by id, or a 404 (module `Views`);
- the two forms (module `Forms`):
  - `RoomForm` edits every room field that has a form field, except `owner`. The automatic
    `id` has no form field. `created_at` is left out twice: `auto_now_add` makes it
    non-editable, and `Meta.exclude` names it as well.
  - `RegisterForm` collects a username, an e-mail address and two passwords;
- any sequence of writes through those models and forms (module `History`). The store stays
  consistent, and a room keeps its owner and its creation time for as long as it exists.

The database is a value: `Store` holds the users, and maps from id to `Room` and to
`RoomImage`. Ids come from counters. The two settings the tag reads are parameters. The clock
reading for `created_at` is a parameter. A stored file is its name together with the URL the
storage backend computed for it.

The shipped settings define neither `USE_CLOUDINARY` nor `CLOUDINARY_CLOUD_NAME`. The tag reads
them as `False` and `None`, so as shipped it never rewrites anything (see Findings).

## Model

| member | source | states |
|---|---|---|
| Choices.PropertyTypeValue | rooms/models.py:7-11 | each property type is stored as one of "Room", "Apartment", "Hostel", and every value fits the 20-character column |
| Choices.RoomTypeValue | rooms/models.py:13-20 | each room type is stored as one of "Single", "Double", "Shared", "1BHK", "2BHK", "3BHK", and every value fits the 20-character column |
| Choices.LocationValue | rooms/models.py:22-26 | each location is stored as one of "Kathmandu", "Pokhara", "Biratnagar", and every value fits the 50-character column |
| Choices.ParsePropertyType | rooms/models.py:32-36 | a submitted property type is accepted exactly when it is one of the declared choices, and it then names the choice stored as that same string |
| Choices.ParseRoomType | rooms/models.py:42 | a submitted room type is accepted exactly when it is a declared choice, and it names that choice |
| Choices.ParseLocation | rooms/models.py:41 | a submitted location is accepted exactly when it is a declared choice, and it names that choice |
| Choices.DefaultPropertyType | rooms/models.py:32-36 | the default property type is the choice stored as "Room" |
| Forms.UntouchedPropertyTypeIsDefault | rooms/models.py:35 | a blank room form shows "Room" preselected. A new room whose property type is left as shown gets the default type, whatever else is typed |
| CloudinaryHelpers.LStripSlashes | rooms/templatetags/cloudinary_helpers.py:24 | `lstrip("/")` returns a suffix of its input that does not start with `/`, preceded only by slashes |
| CloudinaryHelpers.SlashesStrippedUnique | rooms/templatetags/cloudinary_helpers.py:24 | only one string has that description, so stripping is fully determined |
| CloudinaryHelpers.CloudinaryImageUrl | rooms/templatetags/cloudinary_helpers.py:12-25 | a missing image gives `''`. Unless the flag is on, the URL is relative and a non-empty cloud name is set, the URL is returned untouched. Otherwise the result is the delivery prefix for the cloud followed by the URL without its leading slashes. With the flag on and a cloud name set, the result is never relative |
| CloudinaryHelpers.RewrittenUrlIsAbsolute | rooms/templatetags/cloudinary_helpers.py:21-24 | when the rewrite fires, the result starts with `https://res.cloudinary.com/` and the path after `/image/upload/` does not begin with `/` |
| CloudinaryHelpers.CloudinaryImageUrlIdempotent | rooms/templatetags/cloudinary_helpers.py:17-25 | feeding the tag's output back in as the storage URL gives the same output |
| CloudinaryHelpers.ShippedSettingsPassThrough | roomfinder/settings.py:108-112 | with the settings as shipped, the tag returns the storage URL unchanged (or `''` without an image) |
| CloudinaryHelpers.ShippedSettingsLeaveRelativeUrl | rooms/templatetags/cloudinary_helpers.py:1-4 | as shipped, the relative URL `/rooms/ap1.jpg` is returned relative, contrary to the tag's stated purpose |
| CloudinaryHelpers.IntendedCloudinaryImageUrl | rooms/templatetags/cloudinary_helpers.py:13-25 | with the flag on and the storage's cloud name, every relative URL becomes an absolute delivery URL, and absolute URLs pass through |
| CloudinaryHelpers.IntendedSettingsRewriteExample | rooms/templatetags/cloudinary_helpers.py:21-24 | under the intended settings `/rooms/ap1.jpg` becomes `https://res.cloudinary.com/demo/image/upload/rooms/ap1.jpg` |
| Models.FieldsValid | rooms/models.py:38-46 | valid fields are non-empty where required and fit their `max_length`. Each stored choice also fits its column, so a valid room fits every column |
| Models.Integrity | rooms/models.py:29-63 | the foreign keys hold: every room's owner and every image's room exist, and ids match their keys and lie below the counters. So every image leads, through its room, to an existing user |
| Models.Valid | rooms/models.py:29-64 | integrity plus the declared field constraints of every room and every gallery image. So every stored room has an existing owner and a non-empty title, and every gallery image has a file (`blank=False`). This is an application-level invariant: `save()` does not run field validation, and only cleaned form data is saved |
| Models.CreateRoom | rooms/models.py:29-55 | insertion fails exactly when the owner does not exist (or the next id is taken, which integrity rules out). On success the new room takes the next room id and has the caller's owner, `created_at` equal to the clock reading and the given fields. The room counter moves past it; the image counter, the users, the images and every other room are unchanged. A valid store stays valid |
| Models.SaveRoom | rooms/models.py:55 | saving fields onto a stored room replaces only its fields. Its owner, its `created_at` and every other room and image stay as they were; saving a missing room fails |
| Models.CreateRoomImage | rooms/models.py:62-64 | a gallery image can be added only to an existing room. It takes the next image id, refers to that room, holds exactly the given file and leaves everything else unchanged. A valid store stays valid when the file has a name |
| Models.DeleteRooms | rooms/models.py:63 | deleting rooms removes exactly those rooms and exactly the images that refer to them. Everything else is untouched, so no orphan image is left and validity is kept |
| Models.DeleteRoom | rooms/models.py:63 | deleting a room removes it and every image of it; other rooms and their images are unchanged |
| Models.DeleteUser | rooms/models.py:29 | deleting a user removes exactly the rooms they own and, transitively, those rooms' images; everything else stays and validity is kept |
| Models.DeleteRoomsCompose | rooms/models.py:63 | two cascading deletes in a row equal one delete of both sets |
| Models.ParseRoomStr | rooms/models.py:57-58 | a parsed room rendering is a property type value, " - ", and a title |
| Models.RoomStr | rooms/models.py:57-58 | `str(room)` can be read back into the room's property type and title |
| Models.RenderingParses | rooms/models.py:58 | a property type value, " - " and any title read back as that property type and that title, even when the title itself contains " - " |
| Models.RoomStrInjective | rooms/models.py:57-58 | two rooms render alike only if they have the same property type and title |
| Models.ImageStr | rooms/models.py:66-67 | `str(image)` is "Image for " followed by its room's title, and fails only when the room is missing |
| Models.StoredImagesRender | rooms/models.py:63-67 | in a store with integrity, every stored image renders |
| Views.Insert | rooms/views.py:6 | inserting a room into a newest-first list keeps it newest-first, and adds exactly that room and its id |
| Views.RoomList | rooms/views.py:5-7 | the list holds every stored room exactly once, each as stored, with `created_at` non-increasing |
| Views.RoomDetail | rooms/views.py:11-13 | a stored id gives the room whose id it is; a missing id gives NotFound |
| Views.DeletedRoomNotFound | rooms/views.py:12 | after a room is deleted, its detail is NotFound and none of its images remain |
| Forms.FormSendsItsFields | rooms/forms.py:6-9 | the form's fields, derived from the model fields that have a form field minus the excluded ones, are the fields a browser sends back for a room, plus the cover image |
| Forms.RoomFormFieldsExact | rooms/forms.py:9 | `RoomForm` has exactly the ten user fields: never `owner`, `created_at` or `id` |
| Forms.RoomFieldsWithFormFields | rooms/models.py:29-55 | the fields of `Room` that yield a form field are the ten user fields and `owner`: the automatic id has no form field, and `created_at` is not editable |
| Forms.CleanText | rooms/models.py:38-46 | a required text field is accepted exactly when it is present as text, non-empty, within its length bound and free of NUL characters. A NUL is always rejected |
| Forms.CleanChoice | rooms/models.py:32-42 | a required choice field is accepted exactly when a non-empty declared value is sent, and it then yields that choice. Any other non-empty text is an invalid choice |
| Forms.CleanDate | rooms/models.py:49 | a required date is accepted exactly when a date is sent, and it then yields that date |
| Forms.CleanPrice | rooms/models.py:40 | a price is accepted exactly when it is a whole number that is not negative, and it is then that number. A negative one is rejected as below the minimum |
| Forms.CleanImage | rooms/models.py:52 | the optional cover image never fails. It takes an upload, is emptied by the clear box, and keeps the current file when nothing is sent or when a value that is not a file is sent under its name |
| Forms.RoomFormClean | rooms/forms.py:6-9 | accepted data meets every field constraint of the model and holds no NUL character, and the result holds exactly the submitted values. A rejection names at least one field, and only the form's own fields |
| Forms.RoomFormRoundTrip | rooms/forms.py:6-9 | a valid room's form without NUL characters, sent back unchanged, is accepted and returns the room's values unchanged |
| Forms.RoomFormRejectsInvalid | rooms/forms.py:6-9 | conversely, the form of a room that breaks a model constraint or holds a NUL character is rejected, so the form accepts its own rendering exactly for valid, NUL-free rooms |
| Forms.KeysIdentifyNames | rooms/forms.py:6-15 | distinct names have distinct submitted keys: a key the forms declare is never also an `Other` name, so a value is read under exactly one name |
| Forms.RoomFormReadsOnlyItsFields | rooms/forms.py:9 | data submitted under any other name has no effect on the form |
| Forms.ApplyRoomForm | rooms/forms.py:6-9 | saving the form onto a room keeps its id, owner and `created_at`, and takes all other fields from the validated input |
| Forms.SpoofedOwnerIgnored | rooms/forms.py:9 | an `owner` or `created_at` value in the submitted data changes nothing |
| Forms.ResubmitIsIdentity | rooms/forms.py:6-9 | re-submitting the form of a valid room without NUL characters leaves the room as it was |
| Forms.RegisterFormClean | rooms/forms.py:10-15 | sign-up succeeds exactly when username, email, password1 and password2 are all present, non-empty and free of NUL characters, and the result holds those values. A rejection names only those fields |
| Forms.RegisterRoundTrip | rooms/forms.py:10-15 | a filled-in sign-up form is accepted exactly when every value is non-empty and NUL-free, and it then yields what was typed |
| Forms.EmailRequired | rooms/forms.py:11 | without an e-mail address sign-up is rejected, with the error on `email` |
| History.Step | rooms/models.py:29-67 | every write keeps a valid store valid (a gallery photo without a file is refused), and never changes the owner or `created_at` of a room that survives it. New rooms get fresh ids |
| History.StepKeepsIntegrity | rooms/models.py:29-63 | every write keeps the foreign keys intact |
| History.RunPreservesValid | rooms/models.py:29-64 | any sequence of writes keeps the store valid: no room without its owner and no image without its room |
| History.StaysDeleted | roomfinder/settings.py:131 | a deleted room id never comes back: inserts take fresh counter values, and an edit saves only a room that exists |
| History.OwnerAndCreationTimeFixed | rooms/models.py:29-55 | over any sequence of writes, a room that still exists has the owner and `created_at` it was created with |
| History.CreatedRoomHasActingOwner | rooms/forms.py:9 | a room created through the form gets the owner and creation time the caller passes, never values from the submitted data |

## Left out

- The `add_room`, `edit_room` and `delete_room` views are routed in `rooms/urls.py` but are not defined in `rooms/views.py`. No view beyond `room_list` and `room_detail` is modelled. `History` stands for writes through the models and forms only.
- The code has no search, no ownership check and no gallery-image removal; none is modelled.
- Template rendering, HTTP and `get_object_or_404` are not modelled: a 404 is the `NotFound` result.
- Settings beyond the two values the tag reads, routing, the static-file pipeline and the auth framework are not modelled. That includes sessions, password hashing and password validators.
- How the storage backend computes a file's URL is not modelled: the URL is an input. Image bytes, `upload_to` file naming and the Pillow check that an upload is an image are also left out.
- Forms.CleanText: Django's form fields strip surrounding whitespace before validation. Here the submitted values are taken as already stripped. A field reports one error; when a value is both too long and holds a NUL character, only the length error is kept.
- Models.SaveRoom: a save is modelled only after a successful lookup in the same step. Django's `save()` of a stale instance whose row was deleted inserts it again; that upsert is not modelled.
- Forms.CleanPrice: the text-to-integer coercion is not modelled, because submitted values arrive decoded. Any upper bound the database backend puts on a positive-integer column is also not modelled.
- Forms.CleanImage: the error for sending an upload and the clear box together is not modelled, because one key holds one value. The 100-character limit on the stored file name is not modelled either. A cleared image is `None` here, while Django stores an empty name; both count as no file for the tag and for `HasFile`.
- Forms.RegisterFormClean: only presence and NUL characters are checked. Username rules, e-mail format, the password-match check and password validators belong to the auth framework and are left out.
- Models.FieldsValid: the string columns are `CharField`s. The model validates choices at the form layer, and the database may still hold other strings. Here choices are typed, so a stored room always holds a declared choice.
- Views.RoomList: rooms created at the same instant may come in any order; the source promises no tie-break.
- Concurrency and transactions: every operation is one atomic step on the store value.
- Dates and timestamps are plain integers; time zones are not modelled.

## Findings

| source | as written | input that shows it | evidently intended | confidence | as-written member | corrected member |
|---|---|---|---|---|---|---|
| rooms/templatetags/cloudinary_helpers.py:21-22 | the tag reads `USE_CLOUDINARY` and `CLOUDINARY_CLOUD_NAME`, which `roomfinder/settings.py` never defines, so the rewrite cannot fire | an image whose storage URL is `/rooms/ap1.jpg` renders as `/rooms/ap1.jpg`, fetched from the application host | the flag on and the cloud name taken from the configured Cloudinary storage, so that `/rooms/ap1.jpg` becomes `https://res.cloudinary.com/<cloud>/image/upload/rooms/ap1.jpg` | medium; not executed | CloudinaryHelpers.ShippedSettingsLeaveRelativeUrl | CloudinaryHelpers.IntendedCloudinaryImageUrl |

=== FILE: choices.dfy ===
/** The closed vocabularies of a room listing: property type, room type and location.
    Each is stored as a string column whose `max_length` is given here beside it. */
module Choices {
  import opened Wrappers

  /** `max_length` of the `property_type` column. */
  const PropertyTypeMaxLength: nat := 20
  /** `max_length` of the `room_type` column. */
  const RoomTypeMaxLength: nat := 20
  /** `max_length` of the `location` column. */
  const LocationMaxLength: nat := 50

  datatype PropertyType = Room | Apartment | Hostel
  datatype RoomType = Single | Double | Shared | OneBhk | TwoBhk | ThreeBhk
  datatype Location = Kathmandu | Pokhara | Biratnagar

  /** The stored values of the choices, in the order the model declares them. */
  const PropertyTypeValues: seq<string> := ["Room", "Apartment", "Hostel"]
  const RoomTypeValues: seq<string> := ["Single", "Double", "Shared", "1BHK", "2BHK", "3BHK"]
  const LocationValues: seq<string> := ["Kathmandu", "Pokhara", "Biratnagar"]

  /** The string stored in the database for a property type; it is one of the declared
      choices and fits its column. */
  function PropertyTypeValue(p: PropertyType): (v: string)
    ensures v in PropertyTypeValues
    ensures 0 < |v| <= PropertyTypeMaxLength
  {
    match p
    case Room => "Room"
    case Apartment => "Apartment"
    case Hostel => "Hostel"
  }

  function RoomTypeValue(t: RoomType): (v: string)
    ensures v in RoomTypeValues
    ensures 0 < |v| <= RoomTypeMaxLength
  {
    match t
    case Single => "Single"
    case Double => "Double"
    case Shared => "Shared"
    case OneBhk => "1BHK"
    case TwoBhk => "2BHK"
    case ThreeBhk => "3BHK"
  }

  function LocationValue(l: Location): (v: string)
    ensures v in LocationValues
    ensures 0 < |v| <= LocationMaxLength
  {
    match l
    case Kathmandu => "Kathmandu"
    case Pokhara => "Pokhara"
    case Biratnagar => "Biratnagar"
  }

  /** Choice validation of a submitted string: it is accepted exactly when it is one of the
      declared values, and then it names the choice stored as that very string. */
  function ParsePropertyType(s: string): (r: Option<PropertyType>)
    ensures r.Some? <==> s in PropertyTypeValues
    ensures r.Some? ==> PropertyTypeValue(r.value) == s
  {
    if s == "Room" then Some(Room)
    else if s == "Apartment" then Some(Apartment)
    else if s == "Hostel" then Some(Hostel)
    else None
  }

  function ParseRoomType(s: string): (r: Option<RoomType>)
    ensures r.Some? <==> s in RoomTypeValues
    ensures r.Some? ==> RoomTypeValue(r.value) == s
  {
    if s == "Single" then Some(Single)
    else if s == "Double" then Some(Double)
    else if s == "Shared" then Some(Shared)
    else if s == "1BHK" then Some(OneBhk)
    else if s == "2BHK" then Some(TwoBhk)
    else if s == "3BHK" then Some(ThreeBhk)
    else None
  }

  function ParseLocation(s: string): (r: Option<Location>)
    ensures r.Some? <==> s in LocationValues
    ensures r.Some? ==> LocationValue(r.value) == s
  {
    if s == "Kathmandu" then Some(Kathmandu)
    else if s == "Pokhara" then Some(Pokhara)
    else if s == "Biratnagar" then Some(Biratnagar)
    else None
  }

  /** Storing a choice and validating the stored string gives the same choice back. */
  lemma ChoicesRoundTrip(p: PropertyType, t: RoomType, l: Location)
    ensures ParsePropertyType(PropertyTypeValue(p)) == Some(p)
    ensures ParseRoomType(RoomTypeValue(t)) == Some(t)
    ensures ParseLocation(LocationValue(l)) == Some(l)
  {
  }

  /** The property type a room gets when none is given: the `Room` choice. */
  function DefaultPropertyType(): (p: PropertyType)
    ensures PropertyTypeValue(p) == "Room"
  {
    Room
  }
}

=== FILE: cloudinary_helpers.dfy ===
/** The `cloudinary_image_url` template tag: the URL a page uses for an image field. When the
    storage backend hands back a relative path, the tag rebuilds the absolute Cloudinary
    delivery URL so that the browser does not fetch the image from the application host. */
module CloudinaryHelpers {
  import opened Wrappers
  import opened Storage

  const CloudinaryHost := "https://res.cloudinary.com/"
  const UploadPath := "/image/upload/"

  /** A URL is relative to the application host when it starts with `/`. */
  predicate IsRelative(url: string)
  {
    |url| > 0 && url[0] == '/'
  }

  /** The cloud-name setting counts only when it is present and non-empty. */
  predicate CloudNameSet(cloudName: Option<string>)
  {
    cloudName.Some? && cloudName.value != ""
  }

  /** The rewrite fires when the feature flag is on, the URL is relative and a cloud name is set. */
  predicate RewriteApplies(useCloudinary: bool, cloudName: Option<string>, url: string)
  {
    useCloudinary && IsRelative(url) && CloudNameSet(cloudName)
  }

  /** The Cloudinary delivery prefix for a cloud. */
  function DeliveryPrefix(cloud: string): string
  {
    CloudinaryHost + cloud + UploadPath
  }

  /** `t` is what remains of `s` once all of its leading slashes are removed: a suffix of `s`,
      preceded in `s` only by slashes, and not itself starting with a slash. */
  ghost predicate SlashesStripped(s: string, t: string)
  {
    && |t| <= |s|
    && s[|s| - |t|..] == t
    && (forall i | 0 <= i < |s| - |t| :: s[i] == '/')
    && !IsRelative(t)
  }

  /** Python's `s.lstrip("/")`. */
  function LStripSlashes(s: string): (t: string)
    ensures SlashesStripped(s, t)
    decreases |s|
  {
    if IsRelative(s) then LStripSlashes(s[1..]) else s
  }

  /** Only one string is `s` with its leading slashes stripped, so the recursive definition
      above is the only one meeting the description. */
  lemma SlashesStrippedUnique(s: string, t: string, u: string)
    requires SlashesStripped(s, t)
    requires SlashesStripped(s, u)
    ensures t == u
  {
  }

  /** The tag itself, with the two settings `USE_CLOUDINARY` and `CLOUDINARY_CLOUD_NAME` as
      parameters (absent settings are `false` and `None`) and the image field as the stored
      file whose URL the backend computed. */
  function CloudinaryImageUrl(useCloudinary: bool, cloudName: Option<string>, field: Option<StoredFile>): (r: string)
    // An empty or missing image renders as the empty string.
    ensures !HasFile(field) ==> r == ""
    // Unless every rewrite condition holds, the storage URL is passed through untouched.
    ensures HasFile(field) && !RewriteApplies(useCloudinary, cloudName, field.value.url) ==> r == field.value.url
    // Otherwise the result is the delivery prefix followed by the URL without its leading slashes.
    ensures HasFile(field) && RewriteApplies(useCloudinary, cloudName, field.value.url) ==>
      var prefix := DeliveryPrefix(cloudName.value);
      |prefix| <= |r| && r[..|prefix|] == prefix && SlashesStripped(field.value.url, r[|prefix|..])
    // With the flag on and a cloud name set, a non-empty result is never relative.
    ensures useCloudinary && CloudNameSet(cloudName) ==> !IsRelative(r)
  {
    if !HasFile(field) then ""
    else
      var url := field.value.url;
      if useCloudinary && IsRelative(url) then
        if CloudNameSet(cloudName) then
          DeliveryPrefix(cloudName.value) + LStripSlashes(url)
        else url
      else url
  }

  /** When the rewrite fires, the path after `/image/upload/` never starts with a slash and the
      whole result is an absolute `https://` URL. */
  lemma RewrittenUrlIsAbsolute(useCloudinary: bool, cloudName: Option<string>, field: Option<StoredFile>)
    requires HasFile(field) && RewriteApplies(useCloudinary, cloudName, field.value.url)
    ensures var r := CloudinaryImageUrl(useCloudinary, cloudName, field);
      var prefix := DeliveryPrefix(cloudName.value);
      && r[..|CloudinaryHost|] == CloudinaryHost
      && r[|prefix|..] == LStripSlashes(field.value.url)
      && !IsRelative(r[|prefix|..])
  {
    var r := CloudinaryImageUrl(useCloudinary, cloudName, field);
    var prefix := DeliveryPrefix(cloudName.value);
    SlashesStrippedUnique(field.value.url, r[|prefix|..], LStripSlashes(field.value.url));
    assert r[..|CloudinaryHost|] == prefix[..|CloudinaryHost|];
  }

  /** Feeding the tag's output back in as the storage URL of a non-empty field yields the same
      string: a rewritten URL is absolute, an untouched one is untouched again, and the `''` of
      a missing image stays `''`. */
  lemma {:induction false} CloudinaryImageUrlIdempotent(useCloudinary: bool, cloudName: Option<string>, field: Option<StoredFile>, name: string)
    requires name != ""
    ensures var r := CloudinaryImageUrl(useCloudinary, cloudName, field);
      CloudinaryImageUrl(useCloudinary, cloudName, Some(StoredFile(name, r))) == r
  {
    var r := CloudinaryImageUrl(useCloudinary, cloudName, field);
    if HasFile(field) && RewriteApplies(useCloudinary, cloudName, field.value.url) {
      assert r[0] == DeliveryPrefix(cloudName.value)[0] == 'h';
      assert !RewriteApplies(useCloudinary, cloudName, r);
    }
  }

  /** The shipped settings define neither `USE_CLOUDINARY` nor `CLOUDINARY_CLOUD_NAME`, so the
      tag reads them as `False` and `None`. */
  const ShippedUseCloudinary: bool := false
  const ShippedCloudName: Option<string> := None

  /** Under the shipped settings the tag never rewrites: a non-empty field renders as its
      storage URL, relative or not. */
  lemma ShippedSettingsPassThrough(field: Option<StoredFile>)
    ensures CloudinaryImageUrl(ShippedUseCloudinary, ShippedCloudName, field)
         == (if HasFile(field) then field.value.url else "")
  {
  }

  /** The path the tag is meant to repair, as the storage backend returns it on the host. */
  const RelativeExample := StoredFile("rooms/ap1.jpg", "/rooms/ap1.jpg")

  /** As shipped, the tag leaves a relative URL relative: the image is fetched from the
      application host, the very failure the tag exists to repair. */
  lemma ShippedSettingsLeaveRelativeUrl()
    ensures CloudinaryImageUrl(ShippedUseCloudinary, ShippedCloudName, Some(RelativeExample)) == "/rooms/ap1.jpg"
    ensures IsRelative(CloudinaryImageUrl(ShippedUseCloudinary, ShippedCloudName, Some(RelativeExample)))
  {
  }

  /** The tag with the settings it evidently expects when media lives on Cloudinary: the flag
      on, and the cloud name the storage is configured with (`CLOUDINARY_STORAGE`'s
      `CLOUD_NAME`). A relative URL then always becomes an absolute delivery URL. */
  function IntendedCloudinaryImageUrl(storageCloudName: Option<string>, field: Option<StoredFile>): (r: string)
    ensures !HasFile(field) ==> r == ""
    ensures HasFile(field) && !IsRelative(field.value.url) ==> r == field.value.url
    ensures HasFile(field) && CloudNameSet(storageCloudName) ==> !IsRelative(r)
    ensures HasFile(field) && CloudNameSet(storageCloudName) && IsRelative(field.value.url) ==>
      var prefix := DeliveryPrefix(storageCloudName.value);
      |prefix| <= |r| && r[..|prefix|] == prefix && SlashesStripped(field.value.url, r[|prefix|..])
  {
    CloudinaryImageUrl(true, storageCloudName, field)
  }

  /** With a cloud name configured, the intended tag sends the example to Cloudinary. */
  lemma IntendedSettingsRewriteExample()
    ensures IntendedCloudinaryImageUrl(Some("demo"), Some(RelativeExample))
         == "https://res.cloudinary.com/demo/image/upload/rooms/ap1.jpg"
  {
    var url := "/rooms/ap1.jpg";
    assert IsRelative(url) && url[1..] == "rooms/ap1.jpg";
    assert !IsRelative("rooms/ap1.jpg");
    assert LStripSlashes(url) == "rooms/ap1.jpg";
    assert DeliveryPrefix("demo") == "https://res.cloudinary.com/demo/image/upload/";
  }
}

=== FILE: forms.dfy ===
/** The two forms: `RoomForm`, the model form that edits every user-supplied field of a room,
    and `RegisterForm`, the sign-up form. Submitted data is a map from field name to an already
    decoded value; anything submitted under a name the form does not declare is never read. */
module Forms {
  import opened Wrappers
  import opened Storage
  import Choices
  import opened Models

  /** A submitted value, after the browser's encoding is undone. `ClearFile` is the "clear"
      checkbox of an optional file input. */
  datatype FormValue = Text(text: string) | Number(number: int) | Day(day: Date) | Upload(file: StoredFile) | ClearFile

  /** The names data can be submitted under: the fields of the two forms' models, and any
      other name a client chooses to send (`Other`). The submitted key of each is its `Key`;
      the key of an `Other` is never a declared key, so each key has exactly one name. */
  datatype FieldName =
    | Id | Owner | PropertyTypeField | Title | Description | Price | LocationField | RoomTypeField
    | OwnerName | ContactNumber | AvailableFrom | Image | CreatedAt
    | Username | Email | Password1 | Password2
    | Other(key: UndeclaredKey)
  {
    function Key(): string
    {
      match this
      case Id => "id"
      case Owner => "owner"
      case PropertyTypeField => "property_type"
      case Title => "title"
      case Description => "description"
      case Price => "price"
      case LocationField => "location"
      case RoomTypeField => "room_type"
      case OwnerName => "owner_name"
      case ContactNumber => "contact_number"
      case AvailableFrom => "available_from"
      case Image => "image"
      case CreatedAt => "created_at"
      case Username => "username"
      case Email => "email"
      case Password1 => "password1"
      case Password2 => "password2"
      case Other(k) => k
    }
  }

  /** The keys of the declared names. */
  const DeclaredKeys: seq<string> := [
    "id", "owner", "property_type", "title", "description", "price", "location", "room_type",
    "owner_name", "contact_number", "available_from", "image", "created_at",
    "username", "email", "password1", "password2"]

  /** A key none of the declared names has. */
  type UndeclaredKey = k: string | k !in DeclaredKeys witness ""

  type FormData = map<FieldName, FormValue>

  /** Distinct names have distinct keys, so a value submitted under a key is read under exactly
      one name. */
  lemma KeysIdentifyNames(a: FieldName, b: FieldName)
    requires a.Key() == b.Key()
    ensures a == b
  {
  }

  /** Why a field failed to clean. `NullCharacter` is the rejection every text field applies to
      a NUL character in its input. */
  datatype FieldError = Required | WrongKind | InvalidChoice | TooLong(maxLength: nat) | NullCharacter | BelowMinimum

  /** The form's errors, by field name. */
  type Errors = map<FieldName, FieldError>

  /** A model field as a model form sees it: its name and whether it yields a form field. The
      automatic `AutoField` id has no form field, and a field with `editable=False` (such as an
      `auto_now_add` time) is skipped. */
  datatype ModelField = ModelField(name: FieldName, hasFormField: bool)

  /** The fields of a room in declaration order. The automatic id and the `auto_now_add`
      creation time yield no form field. */
  const RoomModelFields: seq<ModelField> := [
    ModelField(Id, false),
    ModelField(Owner, true),
    ModelField(PropertyTypeField, true),
    ModelField(Title, true),
    ModelField(Description, true),
    ModelField(Price, true),
    ModelField(LocationField, true),
    ModelField(RoomTypeField, true),
    ModelField(OwnerName, true),
    ModelField(ContactNumber, true),
    ModelField(AvailableFrom, true),
    ModelField(Image, true),
    ModelField(CreatedAt, false)]

  /** The fields `RoomForm` excludes by name. */
  const RoomFormExclude: set<FieldName> := {Owner, CreatedAt}

  /** The fields of a model form: the model fields that yield a form field and are not
      excluded. */
  function FormFieldNames(fields: seq<ModelField>, exclude: set<FieldName>): (names: set<FieldName>)
    ensures forall n :: n in names <==> n !in exclude && ModelField(n, true) in fields
  {
    set f | f in fields && f.hasFormField && f.name !in exclude :: f.name
  }

  const RoomFormFields: set<FieldName> := FormFieldNames(RoomModelFields, RoomFormExclude)

  /** The ten fields a user edits, written out. */
  const RoomFormFieldSet: set<FieldName> := {PropertyTypeField, Title, Description, Price, LocationField,
    RoomTypeField, OwnerName, ContactNumber, AvailableFrom, Image}

  /** `RoomForm` edits exactly ten fields: never the owner, the creation time or the id. */
  lemma RoomFormFieldsExact()
    ensures RoomFormFields == RoomFormFieldSet
    ensures Owner !in RoomFormFields && CreatedAt !in RoomFormFields && Id !in RoomFormFields
  {
    RoomFormFieldsAre();
  }

  lemma RoomFormFieldsAre()
    ensures RoomFormFields == RoomFormFieldSet
  {
    forall n
      ensures n in RoomFormFields <==> n in RoomFormFieldSet
    {
      RoomFieldsWithFormFields(n);
    }
  }

  /** The fields of a room that yield a form field are all its fields but the id and the
      creation time. */
  lemma RoomFieldsWithFormFields(n: FieldName)
    ensures ModelField(n, true) in RoomModelFields <==> n in RoomFormFieldSet + {Owner}
  {
    match n
    case Other(_) =>
      assert forall i | 0 <= i < |RoomModelFields| :: !RoomModelFields[i].name.Other?;
    case _ =>
  }

  /** A required text field, with an optional length bound. A NUL character is refused; when
      the value is also too long, the length error is the one reported. */
  function CleanText(data: FormData, name: FieldName, maxLength: Option<nat>): (r: Result<string, FieldError>)
    ensures r.Success? <==>
      && name in data && data[name].Text? && data[name].text != ""
      && (maxLength.Some? ==> |data[name].text| <= maxLength.value)
      && '\0' !in data[name].text
    ensures r.Success? ==> data[name] == Text(r.value)
    ensures name in data && data[name].Text? && '\0' in data[name].text ==>
      r.Failure? && (r.error == NullCharacter || r.error.TooLong?)
  {
    if name !in data then Failure(Required)
    else match data[name]
      case Text(t) =>
        if t == "" then Failure(Required)
        else if maxLength.Some? && |t| > maxLength.value then Failure(TooLong(maxLength.value))
        else if '\0' in t then Failure(NullCharacter)
        else Success(t)
      case _ => Failure(WrongKind)
  }

  /** A required choice field: the submitted string must be one of the declared values. */
  function CleanChoice<T>(data: FormData, name: FieldName, parse: string -> Option<T>): (r: Result<T, FieldError>)
    ensures r.Success? <==> name in data && data[name].Text? && data[name].text != "" && parse(data[name].text).Some?
    ensures r.Success? ==> parse(data[name].text) == Some(r.value)
    ensures name in data && data[name].Text? && data[name].text != "" && parse(data[name].text).None? ==>
      r == Failure(InvalidChoice)
  {
    if name !in data then Failure(Required)
    else match data[name]
      case Text(t) =>
        if t == "" then Failure(Required)
        else (match parse(t)
          case Some(v) => Success(v)
          case None => Failure(InvalidChoice))
      case _ => Failure(WrongKind)
  }

  /** A required non-negative whole number. */
  function CleanPrice(data: FormData, name: FieldName): (r: Result<nat, FieldError>)
    ensures r.Success? <==> name in data && data[name].Number? && data[name].number >= 0
    ensures r.Success? ==> name in data && data[name] == Number(r.value)
    ensures name in data && data[name].Number? && data[name].number < 0 ==> r == Failure(BelowMinimum)
  {
    if name !in data then Failure(Required)
    else match data[name]
      case Number(n) => if n < 0 then Failure(BelowMinimum) else Success(n)
      case _ => Failure(WrongKind)
  }

  /** A required date. */
  function CleanDate(data: FormData, name: FieldName): (r: Result<Date, FieldError>)
    ensures r.Success? <==> name in data && data[name].Day?
    ensures r.Success? ==> data[name] == Day(r.value)
  {
    if name !in data then Failure(Required)
    else match data[name]
      case Day(d) => Success(d)
      case _ => Failure(WrongKind)
  }

  /** An optional file field: no submission keeps the file already held, an upload replaces
      it, and the clear checkbox empties it. The file input reads only uploaded files and the
      checkbox, so any other value sent under its name is ignored and it never fails. */
  function CleanImage(data: FormData, name: FieldName, initial: Option<StoredFile>): (r: Result<Option<StoredFile>, FieldError>)
    ensures name !in data ==> r == Success(initial)
    ensures name in data && data[name].Upload? ==> r == Success(Some(data[name].file))
    ensures name in data && data[name].ClearFile? ==> r == Success(None)
    ensures name in data && !data[name].Upload? && !data[name].ClearFile? ==> r == Success(initial)
    ensures r.Success?
  {
    if name !in data then Success(initial)
    else match data[name]
      case Upload(f) => Success(Some(f))
      case ClearFile => Success(None)
      case _ => Success(initial)
  }

  /** The error a field contributes to the form's errors, if any. */
  function ErrorOf<T>(name: FieldName, r: Result<T, FieldError>): (e: Errors)
    ensures r.Failure? ==> name in e
    ensures e.Keys <= {name}
  {
    if r.Failure? then map[name := r.error] else map[]
  }

  /** Each field of `RoomForm`, cleaned on its own. */
  datatype CleanedRoom = CleanedRoom(
    propertyType: Result<Choices.PropertyType, FieldError>,
    title: Result<string, FieldError>,
    description: Result<string, FieldError>,
    price: Result<nat, FieldError>,
    location: Result<Choices.Location, FieldError>,
    roomType: Result<Choices.RoomType, FieldError>,
    ownerName: Result<string, FieldError>,
    contactNumber: Result<string, FieldError>,
    availableFrom: Result<Date, FieldError>,
    image: Result<Option<StoredFile>, FieldError>)
  {
    predicate AllClean()
    {
      && propertyType.Success? && title.Success? && description.Success? && price.Success?
      && location.Success? && roomType.Success? && ownerName.Success? && contactNumber.Success?
      && availableFrom.Success? && image.Success?
    }
  }

  function CleanRoomFields(data: FormData, initialImage: Option<StoredFile>): CleanedRoom
  {
    CleanedRoom(
      CleanChoice(data, PropertyTypeField, Choices.ParsePropertyType),
      CleanText(data, Title, Some(TitleMaxLength)),
      CleanText(data, Description, None),
      CleanPrice(data, Price),
      CleanChoice(data, LocationField, Choices.ParseLocation),
      CleanChoice(data, RoomTypeField, Choices.ParseRoomType),
      CleanText(data, OwnerName, Some(OwnerNameMaxLength)),
      CleanText(data, ContactNumber, Some(ContactNumberMaxLength)),
      CleanDate(data, AvailableFrom),
      CleanImage(data, Image, initialImage))
  }

  /** The error field `n` failed with, if it failed. */
  function FieldFailure(c: CleanedRoom, n: FieldName): Option<FieldError>
  {
    match n
    case PropertyTypeField => ErrorOption(c.propertyType)
    case Title => ErrorOption(c.title)
    case Description => ErrorOption(c.description)
    case Price => ErrorOption(c.price)
    case LocationField => ErrorOption(c.location)
    case RoomTypeField => ErrorOption(c.roomType)
    case OwnerName => ErrorOption(c.ownerName)
    case ContactNumber => ErrorOption(c.contactNumber)
    case AvailableFrom => ErrorOption(c.availableFrom)
    case Image => ErrorOption(c.image)
    case _ => None
  }

  function ErrorOption<T>(r: Result<T, FieldError>): Option<FieldError>
  {
    if r.Failure? then Some(r.error) else None
  }

  /** The form's errors: one entry per field that failed to clean. */
  function RoomFormErrors(c: CleanedRoom): (e: Errors)
    ensures e.Keys <= RoomFormFieldSet
  {
    map n | n in RoomFormFieldSet && FieldFailure(c, n).Some? :: FieldFailure(c, n).value
  }

  /** A field that fails to clean is reported. */
  lemma RoomFormErrorsReported(c: CleanedRoom)
    requires !c.AllClean()
    ensures RoomFormErrors(c) != map[]
  {
    var e := RoomFormErrors(c);
    if c.propertyType.Failure? { assert PropertyTypeField in e; }
    else if c.title.Failure? { assert Title in e; }
    else if c.description.Failure? { assert Description in e; }
    else if c.price.Failure? { assert Price in e; }
    else if c.location.Failure? { assert LocationField in e; }
    else if c.roomType.Failure? { assert RoomTypeField in e; }
    else if c.ownerName.Failure? { assert OwnerName in e; }
    else if c.contactNumber.Failure? { assert ContactNumber in e; }
    else if c.availableFrom.Failure? { assert AvailableFrom in e; }
    else { assert Image in e; }
  }

  /** `data` carries the submitted values of `f`: every entry a browser sends for an unchanged
      form showing `f` is present in `data`. */
  predicate Submits(data: FormData, f: RoomFields)
  {
    forall n | n in EncodeRoomForm(f) :: n in data && data[n] == EncodeRoomForm(f)[n]
  }

  /** None of a room's text fields holds a NUL character, which the form's text fields refuse
      and the model's columns do not. */
  predicate NoNullCharacters(f: RoomFields)
  {
    '\0' !in f.title && '\0' !in f.description && '\0' !in f.ownerName && '\0' !in f.contactNumber
  }

  /** Validate `RoomForm` data. `initialImage` is the cover image of the room being edited
      (none for a new room). The cleaned fields meet every constraint the model declares and
      are the ones submitted; every error is reported under one of the form's own fields. */
  function RoomFormClean(data: FormData, initialImage: Option<StoredFile>): (r: Result<RoomFields, Errors>)
    ensures r.Success? ==> FieldsValid(r.value) && NoNullCharacters(r.value) && Submits(data, r.value)
    ensures r.Success? ==> r.value.image == (if Image in data && data[Image].Upload? then Some(data[Image].file)
                                             else if Image in data && data[Image].ClearFile? then None
                                             else initialImage)
    ensures r.Failure? ==> r.error != map[] && r.error.Keys <= RoomFormFieldSet
  {
    var c := CleanRoomFields(data, initialImage);
    if c.AllClean() then
      Success(RoomFields(c.propertyType.value, c.title.value, c.description.value, c.price.value,
                         c.location.value, c.roomType.value, c.ownerName.value, c.contactNumber.value,
                         c.availableFrom.value, c.image.value))
    else
      RoomFormErrorsReported(c);
      Failure(RoomFormErrors(c))
  }

  /** The data a browser sends back for a room's form left as rendered: every field holds the
      room's value, and no file is uploaded. */
  function EncodeRoomForm(f: RoomFields): (d: FormData)
    ensures d.Keys == RoomFormFieldSet - {Image}
  {
    map[PropertyTypeField := Text(Choices.PropertyTypeValue(f.propertyType)),
        Title := Text(f.title),
        Description := Text(f.description),
        Price := Number(f.price),
        LocationField := Text(Choices.LocationValue(f.location)),
        RoomTypeField := Text(Choices.RoomTypeValue(f.roomType)),
        OwnerName := Text(f.ownerName),
        ContactNumber := Text(f.contactNumber),
        AvailableFrom := Day(f.availableFrom)]
  }

  /** The form's declared fields are what a browser sends back for a room, plus the cover image,
      which is sent only when a new file is chosen. */
  lemma FormSendsItsFields(f: RoomFields)
    ensures RoomFormFields == EncodeRoomForm(f).Keys + {Image}
  {
    RoomFormFieldsAre();
  }

  /** What a blank `RoomForm` shows before anything is typed: the property type preselected
      with the model's default, every other field empty. */
  function NewRoomFormInitial(): (d: FormData)
    ensures d.Keys == {PropertyTypeField}
  {
    map[PropertyTypeField := Text(Choices.PropertyTypeValue(Choices.DefaultPropertyType()))]
  }

  /** A new room whose property type is left as preselected gets the default property type,
      whatever else is typed. */
  lemma UntouchedPropertyTypeIsDefault(typed: FormData)
    ensures CleanChoice(typed + NewRoomFormInitial(), PropertyTypeField, Choices.ParsePropertyType)
            == Success(Choices.DefaultPropertyType())
    ensures RoomFormClean(typed + NewRoomFormInitial(), None).Success? ==>
            RoomFormClean(typed + NewRoomFormInitial(), None).value.propertyType == Choices.DefaultPropertyType()
  {
    Choices.ChoicesRoundTrip(Choices.DefaultPropertyType(), Choices.Single, Choices.Kathmandu);
  }

  /** A room's form, submitted back unchanged, is accepted when the room meets the model's
      constraints and holds no NUL character, and it then yields the room's fields unchanged. */
  lemma RoomFormRoundTrip(f: RoomFields)
    requires FieldsValid(f) && NoNullCharacters(f)
    ensures RoomFormClean(EncodeRoomForm(f), f.image) == Success(f)
  {
    Choices.ChoicesRoundTrip(f.propertyType, f.roomType, f.location);
    var d := EncodeRoomForm(f);
    var c := CleanRoomFields(d, f.image);
    assert c.propertyType == Success(f.propertyType);
    assert c.location == Success(f.location);
    assert c.roomType == Success(f.roomType);
  }

  /** The converse: a room's form is rejected when the room breaks a model constraint or holds
      a NUL character, so the form accepts its own rendering exactly for those rooms. */
  lemma RoomFormRejectsInvalid(f: RoomFields)
    requires !FieldsValid(f) || !NoNullCharacters(f)
    ensures RoomFormClean(EncodeRoomForm(f), f.image).Failure?
  {
    var d := EncodeRoomForm(f);
    var c := CleanRoomFields(d, f.image);
    assert !c.AllClean();
  }

  /** The submitted data restricted to the form's own fields. */
  function OnlyFormFields(data: FormData): (d: FormData)
    ensures d.Keys <= RoomFormFieldSet
  {
    map n | n in data && n in RoomFormFieldSet :: data[n]
  }

  /** Cleaning one field depends on nothing but what is submitted under its name. */
  lemma CleanFieldLocal(d1: FormData, d2: FormData, n: FieldName, m: Option<nat>, img: Option<StoredFile>)
    requires (n in d1 <==> n in d2) && (n in d1 ==> d1[n] == d2[n])
    ensures CleanText(d1, n, m) == CleanText(d2, n, m)
    ensures CleanPrice(d1, n) == CleanPrice(d2, n)
    ensures CleanDate(d1, n) == CleanDate(d2, n)
    ensures CleanImage(d1, n, img) == CleanImage(d2, n, img)
    ensures CleanChoice(d1, n, Choices.ParsePropertyType) == CleanChoice(d2, n, Choices.ParsePropertyType)
    ensures CleanChoice(d1, n, Choices.ParseLocation) == CleanChoice(d2, n, Choices.ParseLocation)
    ensures CleanChoice(d1, n, Choices.ParseRoomType) == CleanChoice(d2, n, Choices.ParseRoomType)
  {
  }

  /** Whatever is submitted under a name the form does not declare is ignored. */
  lemma RoomFormReadsOnlyItsFields(data: FormData, initialImage: Option<StoredFile>)
    ensures RoomFormClean(data, initialImage) == RoomFormClean(OnlyFormFields(data), initialImage)
  {
    var d := OnlyFormFields(data);
    forall n | n in RoomFormFieldSet
      ensures (n in data <==> n in d) && (n in data ==> data[n] == d[n])
    {
    }
    CleanFieldLocal(data, d, PropertyTypeField, None, initialImage);
    CleanFieldLocal(data, d, Title, Some(TitleMaxLength), initialImage);
    CleanFieldLocal(data, d, Description, None, initialImage);
    CleanFieldLocal(data, d, Price, None, initialImage);
    CleanFieldLocal(data, d, LocationField, None, initialImage);
    CleanFieldLocal(data, d, RoomTypeField, None, initialImage);
    CleanFieldLocal(data, d, OwnerName, Some(OwnerNameMaxLength), initialImage);
    CleanFieldLocal(data, d, ContactNumber, Some(ContactNumberMaxLength), initialImage);
    CleanFieldLocal(data, d, AvailableFrom, None, initialImage);
    CleanFieldLocal(data, d, Image, None, initialImage);
    assert CleanRoomFields(data, initialImage) == CleanRoomFields(d, initialImage);
  }

  /** `RoomForm(data, instance=room).save()`: the room with its form fields replaced by the
      cleaned data and its id, owner and creation time as they were. */
  function ApplyRoomForm(room: Room, data: FormData): (r: Result<Room, Errors>)
    ensures r.Success? <==> RoomFormClean(data, room.fields.image).Success?
    ensures r.Success? ==>
      && r.value.id == room.id && r.value.owner == room.owner && r.value.createdAt == room.createdAt
      && r.value.fields == RoomFormClean(data, room.fields.image).value
      && FieldsValid(r.value.fields) && Submits(data, r.value.fields)
  {
    match RoomFormClean(data, room.fields.image)
    case Success(f) => Success(room.(fields := f))
    case Failure(e) => Failure(e)
  }

  /** A value under a name outside the form disappears when the data is restricted. */
  lemma OnlyFormFieldsIgnores(data: FormData, k: FieldName, v: FormValue)
    requires k !in RoomFormFieldSet
    ensures OnlyFormFields(data[k := v]) == OnlyFormFields(data)
  {
  }

  /** An owner or creation time smuggled into the submitted data changes nothing. */
  lemma SpoofedOwnerIgnored(room: Room, data: FormData, owner: FormValue, createdAt: FormValue)
    ensures ApplyRoomForm(room, data[Owner := owner][CreatedAt := createdAt]) == ApplyRoomForm(room, data)
  {
    var spoofed := data[Owner := owner][CreatedAt := createdAt];
    OnlyFormFieldsIgnores(data, Owner, owner);
    OnlyFormFieldsIgnores(data[Owner := owner], CreatedAt, createdAt);
    RoomFormReadsOnlyItsFields(spoofed, room.fields.image);
    RoomFormReadsOnlyItsFields(data, room.fields.image);
  }

  /** Re-submitting a valid room's form unchanged leaves the room as it was. */
  lemma ResubmitIsIdentity(room: Room)
    requires FieldsValid(room.fields) && NoNullCharacters(room.fields)
    ensures ApplyRoomForm(room, EncodeRoomForm(room.fields)) == Success(room)
  {
    RoomFormRoundTrip(room.fields);
  }

  /** The fields `RegisterForm` collects, in order. */
  const RegisterFormFields: seq<FieldName> := [Username, Email, Password1, Password2]

  datatype Registration = Registration(username: string, email: string, password1: string, password2: string)

  /** Validate `RegisterForm` data: all four fields, the e-mail included, are required. */
  function RegisterFormClean(data: FormData): (r: Result<Registration, Errors>)
    ensures r.Success? <==> forall n | n in RegisterFormFields ::
      n in data && data[n].Text? && data[n].text != "" && '\0' !in data[n].text
    ensures r.Success? ==>
      && data[Username] == Text(r.value.username) && data[Email] == Text(r.value.email)
      && data[Password1] == Text(r.value.password1) && data[Password2] == Text(r.value.password2)
    ensures r.Failure? ==> r.error != map[] && r.error.Keys <= {Username, Email, Password1, Password2}
  {
    var username := CleanText(data, Username, None);
    var email := CleanText(data, Email, None);
    var password1 := CleanText(data, Password1, None);
    var password2 := CleanText(data, Password2, None);
    if username.Success? && email.Success? && password1.Success? && password2.Success? then
      Success(Registration(username.value, email.value, password1.value, password2.value))
    else
      var e := ErrorOf(Username, username) + ErrorOf(Email, email)
        + ErrorOf(Password1, password1) + ErrorOf(Password2, password2);
      assert exists n :: n in e;
      Failure(e)
  }

  /** Without an e-mail address the sign-up form is rejected, with the error on `email`. */
  lemma EmailRequired(data: FormData)
    requires Email !in data || data[Email] == Text("")
    ensures RegisterFormClean(data).Failure?
    ensures Email in RegisterFormClean(data).error
  {
  }

  /** What a browser sends for a sign-up form filled in with `reg`. */
  function EncodeRegistration(reg: Registration): (d: FormData)
    ensures d.Keys == {Username, Email, Password1, Password2}
  {
    map[Username := Text(reg.username), Email := Text(reg.email),
        Password1 := Text(reg.password1), Password2 := Text(reg.password2)]
  }

  /** Every value the sign-up form can type holds something and no NUL character. */
  predicate Typeable(t: string)
  {
    t != "" && '\0' !in t
  }

  /** A filled-in sign-up form is accepted exactly when every value is non-empty and free of
      NUL characters, and it then yields what was typed. */
  lemma RegisterRoundTrip(reg: Registration)
    ensures RegisterFormClean(EncodeRegistration(reg)).Success? <==>
      Typeable(reg.username) && Typeable(reg.email) && Typeable(reg.password1) && Typeable(reg.password2)
    ensures RegisterFormClean(EncodeRegistration(reg)).Success? ==>
      RegisterFormClean(EncodeRegistration(reg)).value == reg
  {
    var d := EncodeRegistration(reg);
    assert RegisterFormFields[0] == Username && RegisterFormFields[1] == Email;
    assert RegisterFormFields[2] == Password1 && RegisterFormFields[3] == Password2;
  }
}

=== FILE: history.dfy ===
/** Sequences of writes to the store through the model and form layer. Whatever the order of
    operations, the store keeps its integrity, and a room keeps the owner and creation time it
    was created with for as long as it exists. */
module History {
  import opened Wrappers
  import opened Storage
  import opened Models
  import Forms

  datatype Op =
    | AddUser(user: UserId)
      // a `RoomForm` filled in for a new room, saved with the owner and time the caller supplies
    | CreateWithForm(owner: UserId, data: Forms.FormData, now: Timestamp)
      // a `RoomForm` bound to a stored room, saved
    | EditWithForm(id: RoomId, data: Forms.FormData)
    | AddImage(room: RoomId, file: StoredFile)
    | RemoveRoom(id: RoomId)
    | RemoveUser(user: UserId)

  /** Apply one write. A write the form rejects or the database refuses leaves the store as
      it was. */
  function Step(s: Store, op: Op): (s': Store)
    ensures Valid(s) ==> Valid(s')
    ensures s.nextRoomId <= s'.nextRoomId
    // a room that survives the step keeps its owner and its creation time
    ensures forall k | k in s.rooms && k in s'.rooms ::
      s'.rooms[k].owner == s.rooms[k].owner && s'.rooms[k].createdAt == s.rooms[k].createdAt
    // a room that appears in the step gets the next id
    ensures forall k | k in s'.rooms && k !in s.rooms :: s.nextRoomId <= k
  {
    match op
    case AddUser(u) => s.(users := s.users + {u})
    case CreateWithForm(owner, data, now) =>
      (match Forms.RoomFormClean(data, None)
       case Failure(_) => s
       case Success(f) =>
         match CreateRoom(s, owner, f, now)
         case Failure(_) => s
         case Success(ins) => ins.store)
    case EditWithForm(id, data) =>
      if id !in s.rooms then s
      else
        (match Forms.ApplyRoomForm(s.rooms[id], data)
         case Failure(_) => s
         case Success(room) =>
           match SaveRoom(s, id, room.fields)
           case Failure(_) => s
           case Success(s1) => s1)
    case AddImage(room, file) =>
      // a gallery photo without a file fails the model's `blank=False` check
      if file.name == "" then s
      else
        (match CreateRoomImage(s, room, file)
         case Failure(_) => s
         case Success(ins) => ins.store)
    case RemoveRoom(id) => DeleteRoom(s, id)
    case RemoveUser(u) => DeleteUser(s, u)
  }

  function Run(s: Store, ops: seq<Op>): Store
    decreases |ops|
  {
    if ops == [] then s else Run(Step(s, ops[0]), ops[1..])
  }

  /** Every sequence of writes keeps the store valid: no room without its owner, no image
      without its room, every room's fields within the model's constraints. */
  lemma {:induction false} RunPreservesValid(s: Store, ops: seq<Op>)
    requires Valid(s)
    ensures Valid(Run(s, ops))
    decreases |ops|
  {
    if ops != [] {
      RunPreservesValid(Step(s, ops[0]), ops[1..]);
    }
  }

  /** An id that was handed out and then deleted never comes back. */
  lemma {:induction false} StaysDeleted(s: Store, ops: seq<Op>, id: RoomId)
    requires id !in s.rooms && id < s.nextRoomId
    ensures id !in Run(s, ops).rooms
    decreases |ops|
  {
    if ops != [] {
      StaysDeleted(Step(s, ops[0]), ops[1..], id);
    }
  }

  /** For as long as a room exists, its owner and creation time are the ones it had: no
      edit, image upload or other room's deletion changes them. */
  lemma {:induction false} OwnerAndCreationTimeFixed(s: Store, ops: seq<Op>, id: RoomId)
    requires Integrity(s) && id in s.rooms && id in Run(s, ops).rooms
    ensures Run(s, ops).rooms[id].owner == s.rooms[id].owner
    ensures Run(s, ops).rooms[id].createdAt == s.rooms[id].createdAt
    decreases |ops|
  {
    if ops != [] {
      var s1 := Step(s, ops[0]);
      if id in s1.rooms {
        StepKeepsIntegrity(s, ops[0]);
        OwnerAndCreationTimeFixed(s1, ops[1..], id);
      } else {
        StaysDeleted(s1, ops[1..], id);
        assert false;
      }
    }
  }

  /** The database's integrity survives every write, whatever the stored fields hold. */
  lemma StepKeepsIntegrity(s: Store, op: Op)
    requires Integrity(s)
    ensures Integrity(Step(s, op))
  {
  }

  /** Creating a room through the form gives it the owner and creation time the caller passes,
      never values taken from the submitted data. */
  lemma CreatedRoomHasActingOwner(s: Store, owner: UserId, data: Forms.FormData, now: Timestamp)
    requires owner in s.users && Integrity(s)
    requires Forms.RoomFormClean(data, None).Success?
    ensures s.nextRoomId in Step(s, CreateWithForm(owner, data, now)).rooms
    ensures var r := Step(s, CreateWithForm(owner, data, now)).rooms[s.nextRoomId];
      r.owner == owner && r.createdAt == now && r.fields == Forms.RoomFormClean(data, None).value
  {
  }
}

=== FILE: models.dfy ===
/** The listing data model: rooms, their gallery images and the users who own them, held as
    immutable records in maps keyed by id, with the cascading deletes of the foreign keys. */
module Models {
  import opened Wrappers
  import opened Storage
  import Choices

  type UserId = nat
  type RoomId = nat
  type ImageId = nat
  /** A calendar day, counted in days. */
  type Date = int
  /** An instant, as the clock reports it. */
  type Timestamp = int

  const TitleMaxLength: nat := 200
  const OwnerNameMaxLength: nat := 100
  const ContactNumberMaxLength: nat := 15

  /** The fields of a room that a user may supply: everything except the owner and the
      creation time. `price` is a `nat` because the column is a positive-integer column. */
  datatype RoomFields = RoomFields(
    propertyType: Choices.PropertyType,
    title: string,
    description: string,
    price: nat,
    location: Choices.Location,
    roomType: Choices.RoomType,
    ownerName: string,
    contactNumber: string,
    availableFrom: Date,
    image: Option<StoredFile>)   // the optional cover image

  /** One listing. `owner` and `createdAt` are assigned by the system, never by the fields. */
  datatype Room = Room(id: RoomId, owner: UserId, fields: RoomFields, createdAt: Timestamp)

  /** One gallery photo. Unlike the cover image its file is required (`blank=False`): a valid
      store holds no gallery image whose file name is empty. */
  datatype RoomImage = RoomImage(id: ImageId, room: RoomId, image: StoredFile)

  /** The persisted state. Ids are handed out from counters, so a deleted id is never reused. */
  datatype Store = Store(
    users: set<UserId>,
    rooms: map<RoomId, Room>,
    images: map<ImageId, RoomImage>,
    nextRoomId: nat,
    nextImageId: nat)

  datatype DbError = DoesNotExist | IntegrityError

  /** The constraints the model declares on a room's fields: required text is non-empty and
      bounded text fits its `max_length`. Choices and the price sign hold by their types, and
      every stored choice fits its column too, so valid fields fit every column. */
  function FieldsValid(f: RoomFields): (v: bool)
    ensures v ==>
      && |Choices.PropertyTypeValue(f.propertyType)| <= Choices.PropertyTypeMaxLength
      && |Choices.LocationValue(f.location)| <= Choices.LocationMaxLength
      && |Choices.RoomTypeValue(f.roomType)| <= Choices.RoomTypeMaxLength
      && |f.title| <= TitleMaxLength && |f.ownerName| <= OwnerNameMaxLength
      && |f.contactNumber| <= ContactNumberMaxLength
  {
    && 0 < |f.title| <= TitleMaxLength
    && 0 < |f.description|
    && 0 < |f.ownerName| <= OwnerNameMaxLength
    && 0 < |f.contactNumber| <= ContactNumberMaxLength
  }

  /** Every room is stored under its own id. */
  predicate KeyedById(s: Store)
  {
    forall k | k in s.rooms :: s.rooms[k].id == k
  }

  /** What the database enforces: ids match keys and lie below the counters, every room's
      owner exists, and every image's room exists (no orphans). So every image leads, through
      its room, to an existing user. */
  function Integrity(s: Store): (v: bool)
    ensures v ==> forall k | k in s.images ::
      s.images[k].room in s.rooms && s.rooms[s.images[k].room].owner in s.users
  {
    && KeyedById(s)
    && (forall k | k in s.rooms :: k < s.nextRoomId && s.rooms[k].owner in s.users)
    && (forall k | k in s.images :: s.images[k].id == k && k < s.nextImageId && s.images[k].room in s.rooms)
  }

  /** Integrity plus the declared field constraints of every room and every gallery image. The
      database enforces only the first part; `save()` does not run the model's field validation,
      so the rest is an invariant the application keeps by saving only validated data. */
  function Valid(s: Store): (v: bool)
    ensures v ==> forall k | k in s.rooms :: s.rooms[k].fields.title != "" && s.rooms[k].owner in s.users
    ensures v ==> forall k | k in s.images :: HasFile(Some(s.images[k].image))
  {
    && Integrity(s)
    && (forall k | k in s.rooms :: FieldsValid(s.rooms[k].fields))
    && (forall k | k in s.images :: s.images[k].image.name != "")
  }

  /** A successful insert: the new store and the id the new row received. */
  datatype Inserted = Inserted(store: Store, id: nat)

  /** Insert a room under the next id. The owner is the caller's argument and `created_at` is
      the clock reading `now` (`auto_now_add`); a missing owner violates the foreign key, and a
      taken id the primary key (which a store with integrity never has). */
  function CreateRoom(s: Store, owner: UserId, fields: RoomFields, now: Timestamp): (r: Result<Inserted, DbError>)
    ensures r.Failure? <==> owner !in s.users || s.nextRoomId in s.rooms
    ensures Integrity(s) ==> (r.Failure? <==> owner !in s.users)
    ensures r.Success? ==>
      var s', id := r.value.store, r.value.id;
      && id == s.nextRoomId && id !in s.rooms && id in s'.rooms
      && s'.nextRoomId == s.nextRoomId + 1 && s'.nextImageId == s.nextImageId
      && s'.rooms[id].owner == owner && s'.rooms[id].createdAt == now && s'.rooms[id].fields == fields
      && (forall k | k in s.rooms :: k in s'.rooms && s'.rooms[k] == s.rooms[k])
      && s'.rooms.Keys == s.rooms.Keys + {id}
      && s'.images == s.images && s'.users == s.users
    ensures r.Success? && Valid(s) && FieldsValid(fields) ==> Valid(r.value.store)
  {
    if owner !in s.users || s.nextRoomId in s.rooms then Failure(IntegrityError)
    else
      var id := s.nextRoomId;
      Success(Inserted(s.(rooms := s.rooms[id := Room(id, owner, fields, now)], nextRoomId := id + 1), id))
  }

  /** Save new field values onto an existing room. The owner and the creation time of the row
      are left as they were (`auto_now_add` does not touch a row on update). */
  function SaveRoom(s: Store, id: RoomId, fields: RoomFields): (r: Result<Store, DbError>)
    ensures r.Failure? <==> id !in s.rooms
    ensures r.Success? ==>
      var s' := r.value;
      && s'.rooms.Keys == s.rooms.Keys
      && s'.rooms[id].fields == fields
      && s'.rooms[id].owner == s.rooms[id].owner
      && s'.rooms[id].createdAt == s.rooms[id].createdAt
      && s'.rooms[id].id == s.rooms[id].id
      && (forall k | k in s.rooms && k != id :: s'.rooms[k] == s.rooms[k])
      && s'.images == s.images && s'.users == s.users
    ensures r.Success? && Valid(s) && FieldsValid(fields) ==> Valid(r.value)
  {
    if id !in s.rooms then Failure(DoesNotExist)
    else Success(s.(rooms := s.rooms[id := s.rooms[id].(fields := fields)]))
  }

  /** Insert a gallery image for a room under the next id; a missing room violates the foreign
      key. */
  function CreateRoomImage(s: Store, room: RoomId, file: StoredFile): (r: Result<Inserted, DbError>)
    ensures r.Failure? <==> room !in s.rooms || s.nextImageId in s.images
    ensures Integrity(s) ==> (r.Failure? <==> room !in s.rooms)
    ensures r.Success? ==>
      var s', id := r.value.store, r.value.id;
      && id == s.nextImageId && id !in s.images && id in s'.images
      && s'.nextImageId == s.nextImageId + 1 && s'.nextRoomId == s.nextRoomId
      && s'.images[id].room == room && s'.images[id].image == file
      && (forall k | k in s.images :: k in s'.images && s'.images[k] == s.images[k])
      && s'.images.Keys == s.images.Keys + {id}
      && s'.rooms == s.rooms && s'.users == s.users
    ensures r.Success? && Valid(s) && file.name != "" ==> Valid(r.value.store)
  {
    if room !in s.rooms || s.nextImageId in s.images then Failure(IntegrityError)
    else
      var id := s.nextImageId;
      Success(Inserted(s.(images := s.images[id := RoomImage(id, room, file)], nextImageId := id + 1), id))
  }

  /** The rooms `u` owns. */
  function OwnedBy(s: Store, u: UserId): set<RoomId>
  {
    set k | k in s.rooms && s.rooms[k].owner == u
  }

  /** Delete a set of rooms and, through the cascading foreign key, every image of theirs. */
  function DeleteRooms(s: Store, ids: set<RoomId>): (s': Store)
    ensures s'.rooms.Keys == s.rooms.Keys - ids
    ensures forall k | k in s'.rooms :: s'.rooms[k] == s.rooms[k]
    // no image survives whose room was deleted, and every other image does, unchanged
    ensures forall k | k in s.images :: k in s'.images <==> s.images[k].room !in ids
    ensures forall k | k in s'.images :: k in s.images && s'.images[k] == s.images[k]
    ensures s'.users == s.users
    ensures Valid(s) ==> Valid(s')
  {
    s.(rooms := map k | k in s.rooms && k !in ids :: s.rooms[k],
       images := map k | k in s.images && s.images[k].room !in ids :: s.images[k])
  }

  /** Delete one room with its images (`on_delete=CASCADE` on `RoomImage.room`). Deleting an id
      that is not stored changes nothing. */
  function DeleteRoom(s: Store, id: RoomId): (s': Store)
    ensures s'.rooms.Keys == s.rooms.Keys - {id}
    ensures forall k | k in s'.rooms :: s'.rooms[k] == s.rooms[k]
    ensures forall k | k in s'.images :: s'.images[k].room != id
    ensures forall k | k in s.images && s.images[k].room != id :: k in s'.images && s'.images[k] == s.images[k]
    ensures forall k | k in s'.images :: k in s.images
    ensures s'.users == s.users
    ensures Valid(s) ==> Valid(s')
  {
    DeleteRooms(s, {id})
  }

  /** Delete a user: every room they own goes (`on_delete=CASCADE` on `Room.owner`), and with
      those rooms, transitively, their images. */
  function DeleteUser(s: Store, u: UserId): (s': Store)
    ensures s'.users == s.users - {u}
    ensures forall k | k in s.rooms :: k in s'.rooms <==> s.rooms[k].owner != u
    ensures forall k | k in s'.rooms :: k in s.rooms && s'.rooms[k] == s.rooms[k]
    ensures forall k | k in s'.images :: k in s.images && s'.images[k] == s.images[k]
    ensures forall k | k in s.images && s.images[k].room in s.rooms ::
      k in s'.images <==> s.rooms[s.images[k].room].owner != u
    ensures Valid(s) ==> Valid(s')
  {
    var s1 := DeleteRooms(s, OwnedBy(s, u));
    s1.(users := s1.users - {u})
  }

  /** Deleting two rooms one after the other is deleting both at once, in either order. */
  lemma DeleteRoomsCompose(s: Store, a: set<RoomId>, b: set<RoomId>)
    ensures DeleteRooms(DeleteRooms(s, a), b) == DeleteRooms(s, a + b)
  {
  }

  /** `str(room)`: the property type, a spaced dash, and the title. The rendering can be read
      back into both. */
  function RoomStr(r: Room): (t: string)
    ensures ParseRoomStr(t) == Some((r.fields.propertyType, r.fields.title))
  {
    RenderingParses(r.fields.propertyType, r.fields.title);
    Choices.PropertyTypeValue(r.fields.propertyType) + " - " + r.fields.title
  }

  /** Read a room's rendering back into its property type and title. No property type value
      contains " - ", so the first such separator ends the property type. */
  function ParseRoomStr(t: string): (r: Option<(Choices.PropertyType, string)>)
    ensures r.Some? ==> Choices.PropertyTypeValue(r.value.0) + " - " + r.value.1 == t
  {
    if |t| >= 7 && t[..7] == "Room - " then Some((Choices.Room, t[7..]))
    else if |t| >= 12 && t[..12] == "Apartment - " then Some((Choices.Apartment, t[12..]))
    else if |t| >= 9 && t[..9] == "Hostel - " then Some((Choices.Hostel, t[9..]))
    else None
  }

  /** The rendering of a property type and a title loses neither. */
  lemma RenderingParses(p: Choices.PropertyType, title: string)
    ensures ParseRoomStr(Choices.PropertyTypeValue(p) + " - " + title) == Some((p, title))
  {
    var t := Choices.PropertyTypeValue(p) + " - " + title;
    match p
    case Room => assert t[..7] == "Room - ";
    case Apartment => assert t[0] == 'A' && t[..12] == "Apartment - ";
    case Hostel => assert t[0] == 'H' && t[..9] == "Hostel - ";
  }

  /** Two rooms render alike only if they share property type and title. */
  lemma RoomStrInjective(a: Room, b: Room)
    requires RoomStr(a) == RoomStr(b)
    ensures a.fields.propertyType == b.fields.propertyType && a.fields.title == b.fields.title
  {
  }

  const ImageStrPrefix := "Image for "

  /** `str(image)`: follows the image's foreign key to its room and names the room's title; a
      dangling key would raise `DoesNotExist`. */
  function ImageStr(s: Store, img: RoomImage): (r: Result<string, DbError>)
    ensures r.Failure? <==> img.room !in s.rooms
    ensures r.Success? ==>
      |ImageStrPrefix| <= |r.value| && r.value[..|ImageStrPrefix|] == ImageStrPrefix
      && r.value[|ImageStrPrefix|..] == s.rooms[img.room].fields.title
  {
    if img.room !in s.rooms then Failure(DoesNotExist)
    else Success(ImageStrPrefix + s.rooms[img.room].fields.title)
  }

  /** In a store with integrity every stored image renders. */
  lemma StoredImagesRender(s: Store, k: ImageId)
    requires Integrity(s) && k in s.images
    ensures ImageStr(s, s.images[k]).Success?
  {
  }
}

=== FILE: storage.dfy ===
/** What the model sees of a file kept by the storage backend. */
module Storage {
  import opened Wrappers

  /** A file attached to an image field: the name stored in the database column and the URL
      the storage backend computes for it. How the backend computes the URL is not modelled. */
  datatype StoredFile = StoredFile(name: string, url: string)

  /** A file field is truthy exactly when it holds a file with a non-empty name; a null
      column (`None`) and an empty name are both falsy. */
  predicate HasFile(field: Option<StoredFile>)
  {
    field.Some? && field.value.name != ""
  }
}

=== FILE: views.dfy ===
/** The two read paths: the list of all rooms, newest first, and one room by id. Both take the
    store as a value and return no store, so neither can change it. */
module Views {
  import opened Wrappers
  import opened Models

  /** No `created_at` is older than one listed after it. Rooms created at the same instant may
      appear in either order. */
  predicate NewestFirst(rs: seq<Room>)
  {
    forall i, j | 0 <= i < j < |rs| :: rs[i].createdAt >= rs[j].createdAt
  }

  /** The ids of a sequence of rooms, in order. */
  function Ids(rs: seq<Room>): seq<RoomId>
  {
    seq(|rs|, i requires 0 <= i < |rs| => rs[i].id)
  }

  /** Where `r` goes in a newest-first sequence: after every strictly newer room, in front of
      the first room not newer than it. */
  function InsertPos(rs: seq<Room>, r: Room): (p: nat)
    ensures p <= |rs|
    ensures forall i | 0 <= i < p :: rs[i].createdAt > r.createdAt
    ensures p < |rs| ==> rs[p].createdAt <= r.createdAt
  {
    if rs == [] || rs[0].createdAt <= r.createdAt then 0 else 1 + InsertPos(rs[1..], r)
  }

  /** Put `r` into a newest-first sequence at its place; the rest keep their order. */
  function Insert(rs: seq<Room>, r: Room): (out: seq<Room>)
    requires NewestFirst(rs)
    ensures NewestFirst(out)
    ensures multiset(out) == multiset(rs) + multiset{r}
    ensures multiset(Ids(out)) == multiset(Ids(rs)) + multiset{r.id}
  {
    var p := InsertPos(rs, r);
    var out := rs[..p] + [r] + rs[p..];
    InsertKeepsOrder(rs, r, p);
    InsertCounts(rs, r, p);
    out
  }

  lemma InsertKeepsOrder(rs: seq<Room>, r: Room, p: nat)
    requires NewestFirst(rs) && p <= |rs|
    requires forall i | 0 <= i < p :: rs[i].createdAt > r.createdAt
    requires p < |rs| ==> rs[p].createdAt <= r.createdAt
    ensures NewestFirst(rs[..p] + [r] + rs[p..])
  {
    var out := rs[..p] + [r] + rs[p..];
    forall i, j | 0 <= i < j < |out|
      ensures out[i].createdAt >= out[j].createdAt
    {
      if j < p {
        assert out[i] == rs[i] && out[j] == rs[j];
      } else if j == p {
        assert out[i] == rs[i] && out[j] == r;
      } else if i < p {
        assert out[i] == rs[i] && out[j] == rs[j - 1];
      } else if i == p {
        assert out[i] == r && out[j] == rs[j - 1];
      } else {
        assert out[i] == rs[i - 1] && out[j] == rs[j - 1];
      }
    }
  }

  lemma InsertCounts(rs: seq<Room>, r: Room, p: nat)
    requires p <= |rs|
    ensures multiset(rs[..p] + [r] + rs[p..]) == multiset(rs) + multiset{r}
    ensures multiset(Ids(rs[..p] + [r] + rs[p..])) == multiset(Ids(rs)) + multiset{r.id}
  {
    assert rs[..p] + rs[p..] == rs;
    IdsAppend(rs[..p] + [r], rs[p..]);
    IdsAppend(rs[..p], [r]);
    IdsAppend(rs[..p], rs[p..]);
  }

  lemma IdsAppend(a: seq<Room>, b: seq<Room>)
    ensures Ids(a + b) == Ids(a) + Ids(b)
  {
  }

  /** `room_list`: every stored room exactly once, newest first. */
  method RoomList(s: Store) returns (rs: seq<Room>)
    requires KeyedById(s)
    ensures forall i | 0 <= i < |rs| :: rs[i].id in s.rooms && s.rooms[rs[i].id] == rs[i]
    ensures multiset(Ids(rs)) == multiset(s.rooms.Keys)
    ensures NewestFirst(rs)
  {
    rs := [];
    var remaining := s.rooms.Keys;
    ghost var listed: set<RoomId> := {};
    while remaining != {}
      invariant listed + remaining == s.rooms.Keys
      invariant listed !! remaining
      invariant forall i | 0 <= i < |rs| :: rs[i].id in s.rooms && s.rooms[rs[i].id] == rs[i]
      invariant multiset(Ids(rs)) == multiset(listed)
      invariant NewestFirst(rs)
      decreases remaining
    {
      var k :| k in remaining;
      rs := Insert(rs, s.rooms[k]);
      MultisetAddFresh(listed, k);
      listed := listed + {k};
      remaining := remaining - {k};
    }
  }

  lemma MultisetAddFresh(a: set<RoomId>, k: RoomId)
    requires k !in a
    ensures multiset(a + {k}) == multiset(a) + multiset{k}
  {
  }

  datatype HttpError = NotFound

  /** `room_detail`: the room stored under `id`, or a 404. */
  function RoomDetail(s: Store, id: RoomId): (r: Result<Room, HttpError>)
    ensures r.Success? <==> id in s.rooms
    ensures r.Success? ==> r.value == s.rooms[id]
    ensures r.Success? && KeyedById(s) ==> r.value.id == id
  {
    if id in s.rooms then Success(s.rooms[id]) else Failure(NotFound)
  }

  /** After a room is deleted its detail page is a 404 and none of the images that pointed at
      it is left in the store. */
  lemma DeletedRoomNotFound(s: Store, id: RoomId, img: ImageId)
    requires img in s.images && s.images[img].room == id
    ensures RoomDetail(DeleteRoom(s, id), id) == Failure(NotFound)
    ensures img !in DeleteRoom(s, id).images
  {
  }
}

=== FILE: wrappers.dfy ===
/** Option and Result values for the model's absent settings and error outcomes. */
module Wrappers {

  /** A value that may be missing (a Python `None`). */
  datatype Option<+T> = None | Some(value: T)

  /** The outcome of an operation that either succeeds with a value or fails with an error. */
  datatype Result<+T, +E> = Success(value: T) | Failure(error: E)
}
